=== FILE: README.md ===
# Mat Hold stock screener — a Dafny model

The screener reads a list of Indonesian stock tickers from a spreadsheet shared on Google Drive. It fetches about thirty days of daily prices for each ticker and reports the tickers whose last five trading days form a "Mat Hold" candlestick pattern. Every row of the report holds the ticker's name without its ".JK" exchange suffix, its last close, and the label "Mat Hold".

This project models the part of `streamlit_app.py` that holds logic:

- `mat_hold.dfy` (module `MatHold`): `detect_mat_hold`, the eight-comparison rule on the first five rows of a run of price bars. Prices are mathematical reals.
- `drive.dfy` (module `Drive`): the file-id expression that turns a share link into a download link, and `load_google_drive_excel` with the spreadsheet reader passed in as a function.
- `tickers.dfy` (module `Tickers`): adding ".JK" to every spreadsheet entry and removing it again for display.
- `screener.dfy` (module `Screener`): the loop of `main` over the tickers, as a method proved against a specification function. The market-data fetch is an input: one outcome per ticker, either a failure or a list of bars.
- `pystr.dfy` (module `PyStr`): the Python string operations those expressions use, namely `find`, `split`, `join` and `replace`. They are modelled for a non-empty separator, with the round trip `sep.join(s.split(sep)) == s` proved.
- `wrappers.dfy` (module `Wrappers`): `Option`, which stands for Python's `None` and for "skip this ticker".

With more than five rows, `detect_mat_hold` judges the first five, not the last five (`SixBarRunCanMatch`). The screening loop always cuts a history to its last five bars first (lines 109-110), so the screener's output is unaffected.

## Model

| member | source | states |
|---|---|---|
| `MatHold.DetectMatHold` | streamlit_app.py:32-68 | Fewer than five rows give false. A match implies close[1] < close[0] < close[4], close[0] > 1.02 × open[0], and close[4] > open[0]. |
| `MatHold.DetectIffAllChecks` | streamlit_app.py:36-67 | With at least five rows, the verdict is true if and only if each of the eight named checks holds on rows 0..4. |
| `MatHold.OneFailedCheckRejects` | streamlit_app.py:58-67 | Any single failing check gives false. |
| `MatHold.BodyThresholdIsStrict` | streamlit_app.py:37 | A first body of exactly 2% of its open never matches, because the comparison is strict. |
| `MatHold.GapTestIsInclusive` | streamlit_app.py:52 | In a matching window, changing the fifth open keeps the match exactly when the new open is at or above the fourth close. |
| `MatHold.FlatOpenStillMatches` | streamlit_app.py:52 | A matching window still matches when the fifth open equals the fourth close. |
| `MatHold.OnlyOpenCloseOfFirstFiveMatter` | streamlit_app.py:35-55 | Two runs that agree on Open and Close of rows 0..4 get the same verdict. |
| `MatHold.LaterRowsIgnored` | streamlit_app.py:33-51 | Appending rows after the fifth never changes the verdict. |
| `MatHold.HighLowIgnored` | streamlit_app.py:35-55 | Changing any row's High and Low never changes the verdict. |
| `MatHold.LargeBodyImpliesBullish` | streamlit_app.py:36-37 | For a positive open, the large-body check already implies the bullish check. |
| `MatHold.CanonicalWindowMatches` | streamlit_app.py:32-68 | Closes 100, 98, 96, 95, 102 over opens 97, 99, 97, 96, 95 match, with the fifth open equal to the fourth close. |
| `MatHold.LowLastCloseFails` | streamlit_app.py:55 | The same window with a last close of 99, below the first close, does not match. |
| `MatHold.SmallFirstBodyFails` | streamlit_app.py:37 | The same window with a first candle from 100 to 101, a 1% body, does not match. |
| `MatHold.ThreeBarsFail` | streamlit_app.py:33 | Three bars give false. |
| `MatHold.SixBarRunCanMatch` | streamlit_app.py:33-51 | A six-row run whose first five rows match is accepted. |
| `PyStr.Find` | streamlit_app.py:10 | The result is the leftmost occurrence with none before it, and there is none when no occurrence exists. |
| `PyStr.Split` | streamlit_app.py:10 | A split always has at least one piece. |
| `PyStr.SplitPiecesFree` | streamlit_app.py:10 | No piece of `s.split(sep)` contains `sep`. |
| `PyStr.JoinSplit` | streamlit_app.py:98 | `sep.join(s.split(sep)) == s`. |
| `PyStr.Replace` | streamlit_app.py:98 | `replace` leaves a string without the target unchanged. |
| `PyStr.SplitHeadOfPrefix` | streamlit_app.py:10 | Cutting a string at its end or at a separator character leaves its first piece unchanged. |
| `PyStr.SplitHeadExact` | streamlit_app.py:10 | A prefix without the separator character that ends at the end of the string or at that character is the first piece. |
| `Drive.FileId` | streamlit_app.py:10 | There is no id exactly when the link has no "/d/". An id never contains '/'. |
| `Drive.FileIdOfTail` | streamlit_app.py:10 | The id is the first '/'-separated piece of the text after the first "/d/". |
| `Drive.FileIdSound` | streamlit_app.py:10 | Every id is the text after the first "/d/", up to the next '/' or the end of the link. |
| `Drive.FileIdComplete` | streamlit_app.py:10 | Conversely, that text is the id extracted. |
| `Drive.DownloadUrl` | streamlit_app.py:11 | The download link is the fixed prefix followed by the file id, so the id can be read back from the link. |
| `Drive.LoadGoogleDriveExcel` | streamlit_app.py:7-29 | A link without "/d/" gives None. A sheet is returned only if it was read from the download link of the extracted id, has a "Ticker" column and has only text headers. Such a sheet is always returned. |
| `Drive.NonTextHeaderRejected` | streamlit_app.py:24-29 | A sheet with a "Ticker" column and one non-text header gives None, because joining the column names raises and the `except` returns None. |
| `Tickers.AddSuffix` | streamlit_app.py:84 | The suffixed name starts with the name and has ".JK" right after it. |
| `Tickers.StripSuffix` | streamlit_app.py:98 | A name without ".JK" is left unchanged, and stripping never lengthens a name. |
| `Tickers.StripAddSuffix` | streamlit_app.py:84-98 | Stripping ".JK" from `t + ".JK"` gives back `t` when `t` has no ".JK" of its own. |
| `Tickers.AlreadySuffixedLosesSuffix` | streamlit_app.py:98 | An entry that already ends in ".JK" is displayed without it. |
| `Tickers.TickerList` | streamlit_app.py:84 | There is one entry per spreadsheet entry, and each starts with its spreadsheet entry and has ".JK" right after it. |
| `Tickers.TickerListStripsBack` | streamlit_app.py:84-98 | Each displayed name equals its spreadsheet entry when that entry has no ".JK". |
| `Screener.LastFive` | streamlit_app.py:109-110 | `tail(5)` has five bars and ends with the last bar of the history. |
| `Screener.Verdict` | streamlit_app.py:104-121 | A ticker yields a row exactly when its fetch succeeded, it has at least five bars and its last five match. The row holds the stripped name, the close of the final bar and "Mat Hold". |
| `Screener.Emitted` | streamlit_app.py:116-121 | One iteration appends at most one row. |
| `Screener.FlatMap2Append` | streamlit_app.py:97 | Collecting per-item rows over two joined lists gives the two lists' rows in order. |
| `Screener.QualifyingIndices` | streamlit_app.py:97-121 | The qualifying positions are ascending and in range. They are exactly the positions that qualify. |
| `Screener.ScreenedByIndex` | streamlit_app.py:97-121 | The k-th result comes from the k-th qualifying ticker. There are as many results as qualifying tickers, so the results follow list order and every other ticker is skipped. |
| `Screener.ScreenedAppend` | streamlit_app.py:97-121 | Screening two joined lists gives the first list's results followed by the second's, so a skipped ticker aborts nothing. |
| `Screener.SkippedTickerAddsNothing` | streamlit_app.py:109-123 | A failed fetch or a history of fewer than five bars adds no row. |
| `Screener.Screen` | streamlit_app.py:97-121 | The loop's result list equals the specification `Screened` of the tickers and their fetch outcomes. |
| `Screener.LoadTickers` | streamlit_app.py:79-84 | A ticker list exists exactly when loading succeeds. It is the suffixed list of the "Ticker" column: one entry per cell, each entry its cell followed by ".JK", and each entry strips back to its cell when the cell has no ".JK". |

## Left out

- Streamlit calls (title, info, success, warning, error, progress bar, date input, button, table display) are not modelled. They only render UI. The one argument among them that can raise, the join of the column names at line 24, is modelled in `Drive.LoadGoogleDriveExcel`.
- `yf.Ticker(...).history(...)` is not modelled. Its outcome for each ticker is an input to `Screen`, given in list order. Two equal tickers in the list may therefore get different histories, as two real fetches could.
- `pd.read_excel` is not modelled. It is the `readExcel` parameter, and `None` stands for any exception it raises. Cells of the "Ticker" column are modelled as strings. The formatting of other cell types by `f"{ticker}.JK"` is not captured.
- The 30-day date window (lines 100-102) is not modelled. It is date arithmetic in a library, and the fetched bars are taken as given.
- The progress fraction and percentage (lines 125-128) are not modelled. They are display-only. Because `continue` skips the progress update for a short history, that detail is not captured either.
- Exception types and error messages are not modelled. A failed fetch or load is only "skip this ticker" or "return None".
- Floating point is not modelled. Prices and `0.02 * Open` are exact reals, so rounding near the 2% body threshold, the gap test and the uptrend test is not captured.
- `PyStr.Split`, `PyStr.Replace`, `PyStr.Find`: only non-empty patterns are modelled. Python's `split("")` raises ValueError. `replace("", r)` inserts `r` before every character and once at the end, and `find("")` returns 0; the model does not capture either result. The source never uses an empty pattern.
- `Screener.Verdict`: reads `data['Close'][-1]` (line 119) as the close of the last bar, which is pandas' positional fallback for an integer key on a date-indexed Series. Where that fallback is absent, the lookup raises, the `except` at line 122 skips the ticker, and the model would report it. Any other exception raised after a successful fetch inside the same `try` is not modelled either; only `FetchFailed` stands for a skipped ticker.

=== FILE: drive.dfy ===
/**
 * `load_google_drive_excel`: turn a Google Drive share link into a direct
 * download link and read the spreadsheet behind it.
 */
module Drive {
  import opened Wrappers
  import opened PyStr

  /** The path segment that precedes the file id in a share link. */
  const Marker: string := "/d/"

  const DownloadPrefix: string := "https://drive.google.com/uc?export=download&id="

  /** A column header cell as read: text, or a value of another type (a number, a date). */
  datatype Label = Text(name: string) | NonText

  const TickerColumn: Label := Text("Ticker")

  /** A spreadsheet as read by the reader: each column name with its cells. */
  datatype Sheet = Sheet(columns: map<Label, seq<string>>)

  /** Every header is text, so `', '.join(df.columns)` does not raise. */
  predicate TextHeaders(df: Sheet) {
    forall l | l in df.columns :: l.Text?
  }

  /**
   * `file_url.split("/d/")[1].split("/")[0]`; `None` where indexing `[1]`
   * raises because the link has no "/d/".
   */
  function FileId(url: string): (r: Option<string>)
    ensures r.None? <==> Free(url, Marker)
    ensures r.Some? ==> '/' !in r.value
  {
    var parts := Split(url, Marker);
    if |parts| < 2 then None
    else
      var id := Split(parts[1], "/")[0];
      SplitPiecesFree(parts[1], "/");
      FreeOfChar(id, '/');
      Some(id)
  }

  /** The direct-download link for a file id; the id is read back from its end. */
  function DownloadUrl(id: string): (r: string)
    ensures |r| == |DownloadPrefix| + |id|
    ensures r[..|DownloadPrefix|] == DownloadPrefix && r[|DownloadPrefix|..] == id
  {
    DownloadPrefix + id
  }

  /**
   * `id` is the text that follows the first "/d/" of `url` (found at `i`)
   * up to, not including, the next '/' or the end of the link.
   */
  ghost predicate IdAfterMarker(url: string, i: nat, id: string) {
    var start := i + |Marker|;
    && OccursAt(url, Marker, i)
    && NoneBefore(url, Marker, i)
    && start + |id| <= |url|
    && url[start..start + |id|] == id
    && '/' !in id
    && (start + |id| == |url| || url[start + |id|] == '/')
  }

  /** The text up to the next "/d/", cut at its first '/', is the text up to the first '/'. */
  lemma HeadBeforeMarker(tail: string)
    ensures Split(Split(tail, Marker)[0], "/")[0] == Split(tail, "/")[0]
  {
    SplitHead(tail, Marker);
    match Find(tail, Marker)
    case None =>
    case Some(m) =>
      assert tail[m] == '/' by { assert tail[m..m + 3] == Marker; assert tail[m..m + 3][0] == tail[m]; }
      SplitHeadOfPrefix(tail, '/', m);
  }

  /** Once the first "/d/" is found, the id is the first '/'-separated piece of what follows it. */
  lemma FileIdOfTail(url: string, i: nat)
    requires Find(url, Marker) == Some(i)
    ensures FileId(url) == Some(Split(url[i + |Marker|..], "/")[0])
  {
    var tail := url[i + |Marker|..];
    assert Split(url, Marker) == [url[..i]] + Split(tail, Marker);
    HeadBeforeMarker(tail);
  }

  /** Every extracted id lies between the first "/d/" and the next '/'. */
  lemma FileIdSound(url: string, id: string)
    requires FileId(url) == Some(id)
    ensures Find(url, Marker).Some? && IdAfterMarker(url, Find(url, Marker).value, id)
  {
    var i := Find(url, Marker).value;
    FileIdOfTail(url, i);
    var start := i + |Marker|;
    var tail := url[start..];
    SplitHeadShape(tail, '/');
    assert url[start..start + |id|] == tail[..|id|];
    assert start + |id| < |url| ==> url[start + |id|] == tail[|id|];
  }

  /** Conversely, the text between the first "/d/" and the next '/' is what is extracted. */
  lemma FileIdComplete(url: string, i: nat, id: string)
    requires IdAfterMarker(url, i, id)
    ensures FileId(url) == Some(id)
  {
    FindIsFirst(url, Marker, i);
    FileIdOfTail(url, i);
    var start := i + |Marker|;
    var tail := url[start..];
    assert tail[..|id|] == url[start..start + |id|];
    SplitHeadExact(tail, '/', id);
  }

  /**
   * `load_google_drive_excel(file_url)`, with `pd.read_excel` given as
   * `readExcel` (`None` where it raises). `None` when the link has no
   * "/d/", when reading fails, when there is no "Ticker" column, or when
   * a header is not text (the join of the column names raises).
   */
  function LoadGoogleDriveExcel(url: string, readExcel: string -> Option<Sheet>): (r: Option<Sheet>)
    ensures Free(url, Marker) ==> r.None?
    ensures r.Some? ==> FileId(url).Some? && readExcel(DownloadUrl(FileId(url).value)) == r
    ensures r.Some? ==> TickerColumn in r.value.columns && TextHeaders(r.value)
    ensures (FileId(url).Some? && readExcel(DownloadUrl(FileId(url).value)).Some?
             && TickerColumn in readExcel(DownloadUrl(FileId(url).value)).value.columns
             && TextHeaders(readExcel(DownloadUrl(FileId(url).value)).value)) ==> r.Some?
  {
    match FileId(url)
    case None => None
    case Some(fileId) =>
      match readExcel(DownloadUrl(fileId))
      case None => None
      case Some(df) =>
        if TickerColumn !in df.columns then None
        else if !TextHeaders(df) then None
        else Some(df)
  }

  /** A sheet with a "Ticker" column and one numeric header is rejected. */
  lemma NonTextHeaderRejected(url: string, cells: seq<string>)
    requires FileId(url).Some?
    ensures LoadGoogleDriveExcel(url, _ => Some(Sheet(map[TickerColumn := cells, NonText := []]))) == None
  {
    var df := Sheet(map[TickerColumn := cells, NonText := []]);
    assert NonText in df.columns;
  }
}

=== FILE: mat_hold.dfy ===
/**
 * The Mat Hold candlestick rule (`detect_mat_hold`): a boolean verdict on
 * the first five rows of an ordered run of daily price bars.
 * Prices are mathematical reals; rows are numbered from 0 (oldest).
 * The source names the rows "candle 1" to "candle 5".
 */
module MatHold {

  /** One trading day: the Open, High, Low and Close columns of a row. */
  datatype Bar = Bar(open: real, high: real, low: real, close: real)

  /** The first candle's body must exceed this fraction of its open. */
  const BodyRatio: real := 0.02

  /** The number of rows the rule reads. */
  const WindowSize: nat := 5

  predicate Bullish(b: Bar) { b.close > b.open }

  predicate Bearish(b: Bar) { b.close < b.open }

  predicate LargeBody(b: Bar) { b.close - b.open > BodyRatio * b.open }

  predicate ClosesBelow(later: Bar, earlier: Bar) { later.close < earlier.close }

  predicate ClosesAbove(later: Bar, earlier: Bar) { later.close > earlier.close }

  predicate GapOrEqual(prev: Bar, next: Bar) { next.open >= prev.close }

  /**
   * `detect_mat_hold(data)`: false below five rows; otherwise the
   * conjunction of the eight comparisons on rows 0..4.
   */
  function DetectMatHold(data: seq<Bar>): (r: bool)
    ensures |data| < WindowSize ==> !r
    ensures r ==> |data| >= WindowSize && data[1].close < data[0].close < data[4].close
    ensures r ==> data[0].close > (1.0 + BodyRatio) * data[0].open
    ensures r ==> data[4].close > data[0].open
  {
    if |data| >= WindowSize then
      var candle1 := data[0];
      var isCandle1Bullish := Bullish(candle1);
      var isCandle1LargeBody := LargeBody(candle1);
      var candle2 := data[1];
      var isCandle2Bearish := Bearish(candle2);
      var isCandle2LowerThanCandle1 := ClosesBelow(candle2, candle1);
      var candle3 := data[2];
      var candle4 := data[3];
      var isCandle3Bearish := Bearish(candle3);
      var isCandle4Bearish := Bearish(candle4);
      var candle5 := data[4];
      var isCandle5GapOrEqual := GapOrEqual(candle4, candle5);
      var isUptrend := ClosesAbove(candle5, candle1);
      isCandle1Bullish && isCandle1LargeBody && isCandle2Bearish && isCandle2LowerThanCandle1 &&
      isCandle3Bearish && isCandle4Bearish && isCandle5GapOrEqual && isUptrend
    else
      false
  }

  /** The eight named comparisons of the rule. */
  datatype Check =
    | Candle1Bullish
    | Candle1LargeBody
    | Candle2Bearish
    | Candle2LowerThanCandle1
    | Candle3Bearish
    | Candle4Bearish
    | Candle5GapOrEqual
    | Uptrend

  /** Whether one check passes on rows 0..4 of `w`. */
  predicate Holds(c: Check, w: seq<Bar>)
    requires |w| >= WindowSize
  {
    match c
    case Candle1Bullish => Bullish(w[0])
    case Candle1LargeBody => LargeBody(w[0])
    case Candle2Bearish => Bearish(w[1])
    case Candle2LowerThanCandle1 => ClosesBelow(w[1], w[0])
    case Candle3Bearish => Bearish(w[2])
    case Candle4Bearish => Bearish(w[3])
    case Candle5GapOrEqual => GapOrEqual(w[3], w[4])
    case Uptrend => ClosesAbove(w[4], w[0])
  }

  /** With five rows or more, the verdict is true exactly when every check passes. */
  lemma DetectIffAllChecks(w: seq<Bar>)
    requires |w| >= WindowSize
    ensures DetectMatHold(w) <==> forall c: Check :: Holds(c, w)
  {
    if forall c: Check :: Holds(c, w) {
      assert Holds(Candle1Bullish, w) && Holds(Candle1LargeBody, w);
      assert Holds(Candle2Bearish, w) && Holds(Candle2LowerThanCandle1, w);
      assert Holds(Candle3Bearish, w) && Holds(Candle4Bearish, w);
      assert Holds(Candle5GapOrEqual, w) && Holds(Uptrend, w);
    }
  }

  /** Any single failing check rejects the window. */
  lemma OneFailedCheckRejects(w: seq<Bar>, c: Check)
    requires |w| >= WindowSize && !Holds(c, w)
    ensures !DetectMatHold(w)
  {
    DetectIffAllChecks(w);
  }

  /** The body threshold is strict: a body of exactly 2% of the open never matches. */
  lemma BodyThresholdIsStrict(w: seq<Bar>)
    requires |w| >= WindowSize
    requires w[0].close - w[0].open == BodyRatio * w[0].open
    ensures !DetectMatHold(w)
  {
    OneFailedCheckRejects(w, Candle1LargeBody);
  }

  /**
   * The gap test is inclusive: in a matching window, lowering the fifth
   * open to exactly the fourth close still matches, and lowering it any
   * further does not.
   */
  lemma GapTestIsInclusive(w: seq<Bar>, open4: real)
    requires DetectMatHold(w)
    ensures DetectMatHold(w[4 := w[4].(open := open4)]) <==> open4 >= w[3].close
  {
    var v := w[4 := w[4].(open := open4)];
    assert forall i :: 0 <= i < 4 ==> v[i] == w[i];
    assert v[4].close == w[4].close;
  }

  /** A matching window stays matching when the fifth open is set to the fourth close. */
  lemma FlatOpenStillMatches(w: seq<Bar>)
    requires DetectMatHold(w)
    ensures DetectMatHold(w[4 := w[4].(open := w[3].close)])
  {
    GapTestIsInclusive(w, w[3].close);
  }

  /** Only the Open and Close of rows 0..4 decide the verdict: High, Low and later rows do not. */
  lemma OnlyOpenCloseOfFirstFiveMatter(a: seq<Bar>, b: seq<Bar>)
    requires |a| >= WindowSize && |b| >= WindowSize
    requires forall i :: 0 <= i < WindowSize ==> a[i].open == b[i].open && a[i].close == b[i].close
    ensures DetectMatHold(a) == DetectMatHold(b)
  {
    assert a[0].open == b[0].open && a[0].close == b[0].close;
    assert a[1].open == b[1].open && a[1].close == b[1].close;
    assert a[2].open == b[2].open && a[2].close == b[2].close;
    assert a[3].open == b[3].open && a[3].close == b[3].close;
    assert a[4].open == b[4].open && a[4].close == b[4].close;
  }

  /** Appending rows after the fifth never changes the verdict. */
  lemma LaterRowsIgnored(w: seq<Bar>, extra: seq<Bar>)
    requires |w| >= WindowSize
    ensures DetectMatHold(w + extra) == DetectMatHold(w)
  {
    OnlyOpenCloseOfFirstFiveMatter(w + extra, w);
  }

  /** Changing the High and Low of any row never changes the verdict. */
  lemma HighLowIgnored(w: seq<Bar>, i: nat, high: real, low: real)
    requires i < |w|
    ensures DetectMatHold(w[i := w[i].(high := high, low := low)]) == DetectMatHold(w)
  {
    if |w| >= WindowSize {
      OnlyOpenCloseOfFirstFiveMatter(w[i := w[i].(high := high, low := low)], w);
    }
  }

  /** For a positive open, the large-body check already implies the bullish check. */
  lemma LargeBodyImpliesBullish(b: Bar)
    requires b.open > 0.0 && LargeBody(b)
    ensures Bullish(b)
  {
  }

  /** A bar whose High and Low equal the larger and smaller of its Open and Close. */
  function Candle(open: real, close: real): Bar {
    Bar(open, if open > close then open else close, if open < close then open else close, close)
  }

  /** The canonical match: closes 100, 98, 96, 95, 102 over opens 97, 99, 97, 96, 95. */
  function CanonicalWindow(): seq<Bar> {
    [Candle(97.0, 100.0), Candle(99.0, 98.0), Candle(97.0, 96.0), Candle(96.0, 95.0), Candle(95.0, 102.0)]
  }

  lemma CanonicalWindowMatches()
    ensures DetectMatHold(CanonicalWindow())
  {
  }

  /** The canonical window with the last close at 99, below the first close: no match. */
  lemma LowLastCloseFails()
    ensures !DetectMatHold(CanonicalWindow()[4 := Candle(95.0, 99.0)])
  {
  }

  /** The canonical window with a first candle of 100 to 101, a 1% body: no match. */
  lemma SmallFirstBodyFails()
    ensures !DetectMatHold(CanonicalWindow()[0 := Candle(100.0, 101.0)])
  {
  }

  /** Three bars are too few: no match, and no row is read. */
  lemma ThreeBarsFail()
    ensures !DetectMatHold(CanonicalWindow()[..3])
  {
  }

  /** With more than five rows the first five are judged, so a six-row run can match. */
  lemma SixBarRunCanMatch(extra: Bar)
    ensures DetectMatHold(CanonicalWindow() + [extra])
  {
    LaterRowsIgnored(CanonicalWindow(), [extra]);
  }
}

=== FILE: pystr.dfy ===
/**
 * The few pieces of Python's `str` that the screener relies on:
 * `find`, `split(sep)`, `sep.join(parts)` and `replace(old, new)`,
 * for a non-empty separator.
 */
module PyStr {
  import opened Wrappers

  /** `pat` occurs in `s` starting at index `i`. */
  predicate OccursAt(s: string, pat: string, i: nat) {
    i + |pat| <= |s| && s[i..i + |pat|] == pat
  }

  /** No occurrence of `pat` in `s` starts before index `n`. */
  predicate NoneBefore(s: string, pat: string, n: nat) {
    forall j: nat :: j < n ==> !OccursAt(s, pat, j)
  }

  /** `pat` does not occur anywhere in `s` (Python: `pat not in s`). */
  ghost predicate Free(s: string, pat: string) {
    forall j: nat :: !OccursAt(s, pat, j)
  }

  lemma OccursShift(s: string, pat: string)
    requires |s| > 0
    ensures forall j: nat :: OccursAt(s[1..], pat, j) == OccursAt(s, pat, j + 1)
    ensures forall j: nat :: 0 < j ==> OccursAt(s, pat, j) == OccursAt(s[1..], pat, j - 1)
  {
    forall j: nat ensures OccursAt(s[1..], pat, j) == OccursAt(s, pat, j + 1) {
      if j + 1 + |pat| <= |s| {
        assert s[1..][j..j + |pat|] == s[j + 1..j + 1 + |pat|];
      }
    }
  }

  /** An occurrence that ends within the first `n` characters is one of `s[..n]`. */
  lemma OccursInPrefix(s: string, pat: string, n: nat, j: nat)
    requires n <= |s| && j + |pat| <= n
    ensures OccursAt(s[..n], pat, j) == OccursAt(s, pat, j)
  {
    assert s[..n][j..j + |pat|] == s[j..j + |pat|];
  }

  /** Python's `s.find(pat)`: the leftmost occurrence, `None` standing for -1. */
  function Find(s: string, pat: string): (r: Option<nat>)
    requires |pat| > 0
    ensures r.Some? ==> OccursAt(s, pat, r.value) && NoneBefore(s, pat, r.value)
    ensures r.None? ==> Free(s, pat)
    decreases |s|
  {
    if |s| < |pat| then None
    else if s[..|pat|] == pat then Some(0)
    else
      OccursShift(s, pat);
      assert !OccursAt(s, pat, 0);
      match Find(s[1..], pat)
      case None => None
      case Some(i) => Some(i + 1)
  }

  /** The leftmost occurrence is the only one with nothing before it. */
  lemma FindIsFirst(s: string, pat: string, i: nat)
    requires |pat| > 0
    requires OccursAt(s, pat, i) && NoneBefore(s, pat, i)
    ensures Find(s, pat) == Some(i)
  {
  }

  /** Searching a prefix finds what the whole string has there. */
  lemma FindInPrefix(s: string, pat: string, n: nat)
    requires |pat| > 0 && n <= |s|
    ensures Find(s, pat).Some? && Find(s, pat).value + |pat| <= n ==> Find(s[..n], pat) == Find(s, pat)
    ensures NoneBefore(s, pat, n) ==> Find(s[..n], pat) == None
  {
    forall j: nat | j + |pat| <= n ensures OccursAt(s[..n], pat, j) == OccursAt(s, pat, j) {
      OccursInPrefix(s, pat, n, j);
    }
    match Find(s, pat)
    case Some(q) =>
      if q + |pat| <= n {
        FindIsFirst(s[..n], pat, q);
      }
    case None =>
  }

  /** Python's `s.split(sep)`: the pieces between the leftmost non-overlapping occurrences of `sep`. */
  function Split(s: string, sep: string): (parts: seq<string>)
    requires |sep| > 0
    ensures |parts| >= 1
    decreases |s|
  {
    match Find(s, sep)
    case None => [s]
    case Some(i) => [s[..i]] + Split(s[i + |sep|..], sep)
  }

  /** No piece of a split contains the separator. */
  lemma {:induction false} SplitPiecesFree(s: string, sep: string)
    requires |sep| > 0
    ensures forall k :: 0 <= k < |Split(s, sep)| ==> Free(Split(s, sep)[k], sep)
    decreases |s|
  {
    match Find(s, sep)
    case None =>
    case Some(i) =>
      assert Free(s[..i], sep) by {
        forall j: nat ensures !OccursAt(s[..i], sep, j) {
          if j + |sep| <= i { OccursInPrefix(s, sep, i, j); }
        }
      }
      SplitPiecesFree(s[i + |sep|..], sep);
      assert Split(s, sep) == [s[..i]] + Split(s[i + |sep|..], sep);
  }

  /** The first piece of a split is what precedes the leftmost separator. */
  lemma SplitHead(s: string, sep: string)
    requires |sep| > 0
    ensures Split(s, sep)[0] == if Find(s, sep).Some? then s[..Find(s, sep).value] else s
  {
  }

  /**
   * Cutting `s` at the end or at an occurrence of `c` does not change the
   * first `c`-separated piece.
   */
  lemma SplitHeadOfPrefix(s: string, c: char, n: nat)
    requires n <= |s| && (n == |s| || s[n] == c)
    ensures Split(s[..n], [c])[0] == Split(s, [c])[0]
  {
    if n < |s| {
      FreeOfChar(s, c);
      FindInPrefix(s, [c], n);
      SplitHead(s, [c]);
      SplitHead(s[..n], [c]);
      var q := Find(s, [c]).value;
      assert q <= n;
      if q < n {
        assert s[..n][..q] == s[..q];
      } else {
        assert s[..n] == s[..q];
      }
    } else {
      assert s[..n] == s;
    }
  }

  /** The first `c`-separated piece is a prefix that stops at the end or just before a `c`. */
  lemma SplitHeadShape(s: string, c: char)
    ensures var h := Split(s, [c])[0];
      |h| <= |s| && s[..|h|] == h && (|h| == |s| || s[|h|] == c)
  {
    SplitHead(s, [c]);
    match Find(s, [c])
    case None =>
    case Some(q) =>
      assert s[q..q + 1][0] == s[q];
  }

  /** Conversely, a prefix without `c` that ends at the end or at a `c` is the first piece. */
  lemma SplitHeadExact(s: string, c: char, h: string)
    requires |h| <= |s| && s[..|h|] == h && c !in h && (|h| == |s| || s[|h|] == c)
    ensures Split(s, [c])[0] == h
  {
    SplitHead(s, [c]);
    FreeOfChar(h, c);
    if |h| == |s| {
      assert s == h;
    } else {
      FreeOfChar(s, c);
      forall j: nat | j < |h| ensures !OccursAt(s, [c], j) {
        assert s[j] == h[j];
      }
      FindIsFirst(s, [c], |h|);
    }
  }

  /** Python's `sep.join(parts)`. */
  function Join(parts: seq<string>, sep: string): string
    decreases |parts|
  {
    if |parts| == 0 then ""
    else if |parts| == 1 then parts[0]
    else parts[0] + sep + Join(parts[1..], sep)
  }

  /** Joining the pieces of a split with the same separator gives back the string. */
  lemma {:induction false} JoinSplit(s: string, sep: string)
    requires |sep| > 0
    ensures Join(Split(s, sep), sep) == s
    decreases |s|
  {
    match Find(s, sep)
    case None =>
    case Some(i) =>
      var rest := Split(s[i + |sep|..], sep);
      JoinSplit(s[i + |sep|..], sep);
      assert Split(s, sep) == [s[..i]] + rest;
      calc {
        Join(Split(s, sep), sep);
        s[..i] + sep + Join(rest, sep);
        s[..i] + sep + s[i + |sep|..];
        { assert s[i..i + |sep|] == sep; }
        s;
      }
  }

  /** Python's `s.replace(target, replacement)`, which is `replacement.join(s.split(target))`. */
  function Replace(s: string, target: string, replacement: string): (r: string)
    requires |target| > 0
    ensures Free(s, target) ==> r == s
  {
    Join(Split(s, target), replacement)
  }

  /** A one-character pattern occurs exactly where that character is. */
  lemma FreeOfChar(s: string, c: char)
    ensures Free(s, [c]) <==> c !in s
    ensures forall j: nat :: OccursAt(s, [c], j) <==> j < |s| && s[j] == c
  {
    forall j: nat ensures OccursAt(s, [c], j) <==> j < |s| && s[j] == c {
      if j < |s| { assert s[j..j + 1] == [s[j]]; }
    }
    if c in s {
      var j :| 0 <= j < |s| && s[j] == c;
      assert OccursAt(s, [c], j);
    }
  }
}

=== FILE: screener.dfy ===
/**
 * The screening part of `main`: build the suffixed ticker list from the
 * spreadsheet, then walk it, judge the last five bars of each ticker's
 * history and collect the matches in list order. The market-data fetch is
 * an input: one outcome per ticker, in list order.
 */
module Screener {
  import opened Wrappers
  import opened PyStr
  import opened MatHold
  import opened Tickers
  import opened Drive

  /** What fetching one ticker's history gave: an exception, or its bars, oldest first. */
  datatype Fetch = FetchFailed | History(bars: seq<Bar>)

  /** One row of the results table. */
  datatype Match = Match(ticker: string, lastClose: real, pattern: string)

  const PatternLabel: string := "Mat Hold"

  /** `data.tail(5)`, taken only when there are at least five bars. */
  function LastFive(bars: seq<Bar>): (w: seq<Bar>)
    requires |bars| >= WindowSize
    ensures |w| == WindowSize && w[WindowSize - 1] == bars[|bars| - 1]
  {
    bars[|bars| - WindowSize..]
  }

  /** A ticker is reported when its fetch succeeded, it has five bars or more and its last five match. */
  predicate Qualifies(h: Fetch) {
    h.History? && |h.bars| >= WindowSize && DetectMatHold(LastFive(h.bars))
  }

  /** The result row one loop iteration appends, if any. */
  function Verdict(ticker: string, h: Fetch): (r: Option<Match>)
    ensures r.Some? <==> Qualifies(h)
    ensures r.Some? ==> r.value.lastClose == h.bars[|h.bars| - 1].close
    ensures r.Some? ==> r.value.ticker == StripSuffix(ticker) && r.value.pattern == PatternLabel
  {
    match h
    case FetchFailed => None
    case History(bars) =>
      if |bars| >= WindowSize then
        var data := LastFive(bars);
        if DetectMatHold(data) then Some(Match(StripSuffix(ticker), data[4].close, PatternLabel)) else None
      else None
  }

  /** The rows one loop iteration appends: none or one. */
  function Emitted(ticker: string, h: Fetch): (rows: seq<Match>)
    ensures |rows| <= 1
  {
    match Verdict(ticker, h)
    case None => []
    case Some(m) => [m]
  }

  /** `f(xs[0], ys[0]) + f(xs[1], ys[1]) + ...`, in list order. */
  function FlatMap2<A, B, C>(xs: seq<A>, ys: seq<B>, f: (A, B) -> seq<C>): seq<C>
    requires |xs| == |ys|
    decreases |xs|
  {
    if |xs| == 0 then []
    else
      var n := |xs| - 1;
      FlatMap2(xs[..n], ys[..n], f) + f(xs[n], ys[n])
  }

  /** A flat map over two concatenated lists is the concatenation of the two flat maps. */
  lemma {:induction false} FlatMap2Append<A, B, C>(x1: seq<A>, y1: seq<B>, x2: seq<A>, y2: seq<B>, f: (A, B) -> seq<C>)
    requires |x1| == |y1| && |x2| == |y2|
    ensures FlatMap2(x1 + x2, y1 + y2, f) == FlatMap2(x1, y1, f) + FlatMap2(x2, y2, f)
    decreases |x2|
  {
    if |x2| == 0 {
      assert x1 + x2 == x1 && y1 + y2 == y1;
    } else {
      var n := |x2| - 1;
      var xs, ys := x1 + x2, y1 + y2;
      FlatMap2Append(x1, y1, x2[..n], y2[..n], f);
      assert xs[..|x1| + n] == x1 + x2[..n];
      assert ys[..|y1| + n] == y1 + y2[..n];
      assert xs[|x1| + n] == x2[n] && ys[|y1| + n] == y2[n];
      calc {
        FlatMap2(xs, ys, f);
        FlatMap2(xs[..|x1| + n], ys[..|y1| + n], f) + f(x2[n], y2[n]);
        (FlatMap2(x1, y1, f) + FlatMap2(x2[..n], y2[..n], f)) + f(x2[n], y2[n]);
        FlatMap2(x1, y1, f) + (FlatMap2(x2[..n], y2[..n], f) + f(x2[n], y2[n]));
        FlatMap2(x1, y1, f) + FlatMap2(x2, y2, f);
      }
    }
  }

  /** The results of screening `tickers` against their fetch outcomes. */
  function Screened(tickers: seq<string>, histories: seq<Fetch>): seq<Match>
    requires |tickers| == |histories|
  {
    FlatMap2(tickers, histories, Emitted)
  }

  /** The positions of the qualifying tickers, ascending. */
  function QualifyingIndices(histories: seq<Fetch>): (idx: seq<nat>)
    ensures forall k :: 0 <= k < |idx| ==> idx[k] < |histories| && Qualifies(histories[idx[k]])
    ensures forall k, l :: 0 <= k < l < |idx| ==> idx[k] < idx[l]
    ensures forall i :: 0 <= i < |histories| && Qualifies(histories[i]) ==> i in idx
    decreases |histories|
  {
    if |histories| == 0 then []
    else
      var n := |histories| - 1;
      var earlier := QualifyingIndices(histories[..n]);
      if Qualifies(histories[n]) then earlier + [n] else earlier
  }

  /**
   * The results are exactly the qualifying tickers, in list order: the k-th
   * row comes from the k-th qualifying position, and every other ticker is
   * skipped.
   */
  lemma {:induction false} ScreenedByIndex(tickers: seq<string>, histories: seq<Fetch>)
    requires |tickers| == |histories|
    ensures var idx := QualifyingIndices(histories);
      && |Screened(tickers, histories)| == |idx|
      && forall k :: 0 <= k < |idx| ==> Verdict(tickers[idx[k]], histories[idx[k]]) == Some(Screened(tickers, histories)[k])
    decreases |tickers|
  {
    if |tickers| > 0 {
      var n := |tickers| - 1;
      var ts, hs := tickers[..n], histories[..n];
      ScreenedByIndex(ts, hs);
      var earlier := Screened(ts, hs);
      var idx := QualifyingIndices(hs);
      forall k | 0 <= k < |idx|
        ensures Verdict(tickers[idx[k]], histories[idx[k]]) == Some(earlier[k])
      {
        assert ts[idx[k]] == tickers[idx[k]] && hs[idx[k]] == histories[idx[k]];
      }
      match Verdict(tickers[n], histories[n])
      case None =>
        assert Screened(tickers, histories) == earlier;
        assert QualifyingIndices(histories) == idx;
      case Some(m) =>
        assert Screened(tickers, histories) == earlier + [m];
        assert QualifyingIndices(histories) == idx + [n];
    }
  }

  /** Screening a concatenated list gives the two lists' results in order: a skipped ticker aborts nothing. */
  lemma ScreenedAppend(t1: seq<string>, h1: seq<Fetch>, t2: seq<string>, h2: seq<Fetch>)
    requires |t1| == |h1| && |t2| == |h2|
    ensures Screened(t1 + t2, h1 + h2) == Screened(t1, h1) + Screened(t2, h2)
  {
    FlatMap2Append(t1, h1, t2, h2, Emitted);
  }

  /** A ticker whose fetch failed, or that has fewer than five bars, adds nothing. */
  lemma SkippedTickerAddsNothing(tickers: seq<string>, histories: seq<Fetch>, t: string, h: Fetch)
    requires |tickers| == |histories|
    requires h.FetchFailed? || |h.bars| < WindowSize
    ensures Screened(tickers + [t], histories + [h]) == Screened(tickers, histories)
  {
    assert (tickers + [t])[..|tickers|] == tickers;
    assert (histories + [h])[..|histories|] == histories;
  }

  /**
   * The loop of `main`: for each ticker, skip a failed fetch or a history
   * of fewer than five bars, keep the last five bars and append
   * `(clean name, last close, "Mat Hold")` when they match.
   */
  method Screen(tickers: seq<string>, histories: seq<Fetch>) returns (results: seq<Match>)
    requires |tickers| == |histories|
    ensures results == Screened(tickers, histories)
  {
    results := [];
    for i := 0 to |tickers|
      invariant results == Screened(tickers[..i], histories[..i])
    {
      assert tickers[..i + 1][..i] == tickers[..i] && histories[..i + 1][..i] == histories[..i];
      var tickerClean := StripSuffix(tickers[i]);
      match histories[i]
      case FetchFailed =>
      case History(bars) =>
        if |bars| < WindowSize {
          continue;
        }
        var data := LastFive(bars);
        if DetectMatHold(data) {
          results := results + [Match(tickerClean, data[4].close, PatternLabel)];
        }
    }
    assert tickers[..|tickers|] == tickers && histories[..|histories|] == histories;
  }

  /**
   * Lines 79-84 of `main`: load the spreadsheet and suffix every entry of
   * its "Ticker" column; `None` where `main` stops early.
   */
  function LoadTickers(url: string, readExcel: string -> Option<Sheet>): (r: Option<seq<string>>)
    ensures r.Some? <==> LoadGoogleDriveExcel(url, readExcel).Some?
    ensures r.Some? ==>
      var raw := LoadGoogleDriveExcel(url, readExcel).value.columns[TickerColumn];
      && r.value == TickerList(raw)
      && |r.value| == |raw|
      && (forall i :: 0 <= i < |raw| ==> r.value[i] == raw[i] + Suffix)
      && forall i :: 0 <= i < |raw| && Free(raw[i], Suffix) ==> StripSuffix(r.value[i]) == raw[i]
  {
    match LoadGoogleDriveExcel(url, readExcel)
    case None => None
    case Some(df) =>
      if TickerColumn !in df.columns then None
      else
        var raw := df.columns[TickerColumn];
        TickerListStripsBack(raw);
        Some(TickerList(raw))
  }
}

=== FILE: tickers.dfy ===
/**
 * Ticker names: the exchange suffix ".JK" (Indonesia Stock Exchange) is
 * appended before fetching prices and removed again for display.
 */
module Tickers {
  import opened PyStr

  const Suffix: string := ".JK"

  /** `f"{ticker}.JK"`. */
  function AddSuffix(t: string): (r: string)
    ensures |r| == |t| + |Suffix| && r[..|t|] == t && OccursAt(r, Suffix, |t|)
  {
    t + Suffix
  }

  /** `ticker.replace(".JK", "")`: removes every occurrence, not only a trailing one. */
  function StripSuffix(t: string): (r: string)
    ensures Free(t, Suffix) ==> r == t
    ensures |r| <= |t|
  {
    JoinShorter(t);
    Replace(t, Suffix, "")
  }

  /** Removing every ".JK" never gives more characters than the string it came from. */
  lemma JoinShorter(t: string)
    ensures |Replace(t, Suffix, "")| <= |t|
  {
    JoinSplitLength(t);
  }

  lemma {:induction false} JoinSplitLength(t: string)
    ensures |Join(Split(t, Suffix), "")| + (|Split(t, Suffix)| - 1) * |Suffix| == |t|
    decreases |t|
  {
    JoinSplit(t, Suffix);
    JoinLength(Split(t, Suffix), Suffix);
    JoinLength(Split(t, Suffix), "");
  }

  lemma {:induction false} JoinLength(parts: seq<string>, sep: string)
    requires |parts| >= 1
    ensures |Join(parts, sep)| == |Join(parts, "")| + (|parts| - 1) * |sep|
    decreases |parts|
  {
    if |parts| > 1 {
      JoinLength(parts[1..], sep);
    }
  }

  /** In `t + ".JK" + u`, with no ".JK" in `t`, the first ".JK" is the one after `t`. */
  lemma SplitAfterPlainName(t: string, u: string)
    requires Free(t, Suffix)
    ensures Split(t + Suffix + u, Suffix) == [t] + Split(u, Suffix)
  {
    var s := t + Suffix + u;
    assert OccursAt(s, Suffix, |t|) by { assert s[|t|..|t| + 3] == Suffix; }
    forall j: nat | j < |t| ensures !OccursAt(s, Suffix, j) {
      if j + 3 <= |t| {
        assert s[j..j + 3] == t[j..j + 3];
        assert !OccursAt(t, Suffix, j);
      } else if j + 1 == |t| {
        assert s[j + 1] == '.';
      } else {
        assert s[j + 2] == '.';
      }
    }
    FindIsFirst(s, Suffix, |t|);
    assert s[..|t|] == t;
    assert s[|t| + 3..] == u;
  }

  /** Stripping the suffix from a suffixed name gives the name back, when the name has no ".JK" of its own. */
  lemma StripAddSuffix(t: string)
    requires Free(t, Suffix)
    ensures StripSuffix(AddSuffix(t)) == t
  {
    SplitAfterPlainName(t, "");
    assert t + Suffix + "" == AddSuffix(t);
    assert Split("", Suffix) == [""];
    assert Join([t, ""], "") == t + "" + Join([""], "");
  }

  /** Line 84: the suffixed ticker list, one entry per spreadsheet entry. */
  function TickerList(raw: seq<string>): (r: seq<string>)
    ensures |r| == |raw|
    ensures forall i :: 0 <= i < |raw| ==>
      |r[i]| == |raw[i]| + |Suffix| && r[i][..|raw[i]|] == raw[i] && OccursAt(r[i], Suffix, |raw[i]|)
  {
    seq(|raw|, i requires 0 <= i < |raw| => AddSuffix(raw[i]))
  }

  /** Each displayed name is the spreadsheet entry it came from, for entries without ".JK". */
  lemma TickerListStripsBack(raw: seq<string>)
    ensures forall i :: 0 <= i < |raw| && Free(raw[i], Suffix) ==> StripSuffix(TickerList(raw)[i]) == raw[i]
  {
    forall i | 0 <= i < |raw| && Free(raw[i], Suffix)
      ensures StripSuffix(TickerList(raw)[i]) == raw[i]
    {
      StripAddSuffix(raw[i]);
    }
  }

  /** An entry that already ends in ".JK" is shown without it: every occurrence is removed. */
  lemma AlreadySuffixedLosesSuffix(t: string)
    requires Free(t, Suffix)
    ensures StripSuffix(AddSuffix(t + Suffix)) == t
  {
    SplitAfterPlainName(t, Suffix);
    assert AddSuffix(t + Suffix) == t + Suffix + Suffix;
    SplitAfterPlainName("", "");
    assert "" + Suffix + "" == Suffix;
    assert Split("", Suffix) == [""];
    assert Split(Suffix, Suffix) == ["", ""];
    assert Join(["", ""], "") == "";
    assert Join([t, "", ""], "") == t + "" + Join(["", ""], "");
  }
}

=== FILE: wrappers.dfy ===
/** A value that may be absent: Python's `None` and the "skip this item" outcome. */
module Wrappers {
  datatype Option<+T> = None | Some(value: T)
}
